=== FILE: README.md ===
# Group content viewer: category crumbs, view synchronisation, item search

A Dafny model of the parts of the group content viewer that carry logic of
their own. The rest of the application is DOM construction and calls into
the mapping SDK and the portal. Three pieces are modelled:

- **The category breadcrumb widget** (`GroupCategoryCrumbs`, in `crumbs.dfy`).
  The widget holds a trail of crumbs. The first is the read-only root
  category. Each later crumb is a sub-category picked from the drop-down
  menu of the crumb before it. Clicking a crumb cuts the trail back. Every
  menu rebuild stores a `value` and emits it as a `change` event. The
  value's `path` is "/" followed by the crumbs' `innerHTML` joined by "/".
  A crumb's `innerHTML` is the HTML serialization of its title, so "&",
  "<", ">" and the no-break space come back as character references
  (`Html`, in `html.dfy`).
  The trail is a `seq<Crumb>`, the drop-down is a `Menu`, and emitted events
  go to a log `changes`. Each handler is a pure function on a `Widget`.
  `Valid` is the invariant the handlers keep:
  - levels are exactly 1..k;
  - every crumb after the root is a sub-category of the crumb before it;
  - no crumb is deeper than `maxDepth` (the root always exists);
  - the menu and the value belong to the last crumb.
- **Viewpoint synchronisation** (`ViewSync`, in `view_sync.dfy`). Every view
  has a synchronizer with the phases `Idle`, `Scheduled` and `Mirroring`.
  These are the three shapes its handles take. `Idle` has no handles.
  `Scheduled` has a pending zero-delay timer and watches on the other views.
  `Mirroring` has a viewpoint watch and watches on the other views.
  The inputs are events, each a step function:
  - a view starts interacting or animating;
  - a timer fires;
  - a viewpoint changes;
  - a view becomes stationary.
  The model proves that at most one synchronizer is active at any time.
- **Item search helpers** (`GroupItems`, in `item_query.dfy`). These are:
  - the portal search query string;
  - the category, sort and page parameters of an item query;
  - the snippet shown on an item card, cut to 160 characters.

`html.dfy` holds that serialization and its inverse. `strings.dfy` holds JavaScript-style `join` and `split` on one separator
character, with the round trip between them. `wrappers.dfy` holds `Option`,
which stands for `null`/`undefined`.

## Model

| member | source | states |
|---|---|---|
| GroupCategoryCrumbs.NewWidget | app/widgets/GroupCategoryCrumbs.js:46-57 | a new widget has depth limit 4, source "none", a value with null path and category, and no crumbs |
| GroupCategoryCrumbs.FetchCategorySchema | app/widgets/GroupCategoryCrumbs.js:89-119 | a non-empty group schema gives source "PortalGroup"; failing that, a portal schema gives "Organization"; failing that, the unchanged value is emitted and there is no schema; without a group there is no schema |
| GroupCategoryCrumbs.SetCategorySchema | app/widgets/GroupCategoryCrumbs.js:68-83 | with a schema and a container the UI is rebuilt: a first category restarts the trail as a single read-only crumb at level 1 for it, whose parent is the group with the whole schema, with its menu, and stores and emits the value ("/" plus the root's serialized title, the first category); an empty schema leaves an empty trail, a hidden menu and nothing emitted; without a schema or a container only the schema is stored |
| GroupCategoryCrumbs.SetPortalGroup | app/widgets/GroupCategoryCrumbs.js:58-67 | without a group nothing changes; a non-empty group schema is stored with source "PortalGroup", else a portal schema with source "Organization", else the schema is cleared, the unchanged value emitted and the trail kept; a stored non-empty schema with a container restarts the trail at a read-only level-1 crumb for its first category, with that category's menu and the emitted value ("/" plus its serialized title, that category); an empty organisation schema with a container empties the trail and hides the menu without emitting |
| GroupCategoryCrumbs.SetPortalGroupValid | app/widgets/GroupCategoryCrumbs.js:58-83 | setting a group that has a non-empty group or organisation schema yields a valid widget whose root crumb is at level 1 and read-only |
| GroupCategoryCrumbs.RemoveCrumbs | app/widgets/GroupCategoryCrumbs.js:168-174 | no surviving crumb has a level at or above the given one, and nothing is added |
| GroupCategoryCrumbs.RemoveCrumbsExactly | app/widgets/GroupCategoryCrumbs.js:168-174 | a crumb survives exactly when it was in the trail and its level is below the given level |
| GroupCategoryCrumbs.RemoveCrumbsNone | app/widgets/GroupCategoryCrumbs.js:168-174 | a trail whose levels are all below the given level is kept whole |
| GroupCategoryCrumbs.RemoveCrumbsPrefix | app/widgets/GroupCategoryCrumbs.js:168-174 | on a trail with levels 1..k, removing from level L on keeps exactly the first L-1 crumbs, in their original order |
| GroupCategoryCrumbs.BuildMenu | app/widgets/GroupCategoryCrumbs.js:218-239 | the menu is shown exactly when the category has a sub-category and the level is below `maxDepth`; it then lists every sub-category, otherwise it is hidden and empty |
| GroupCategoryCrumbs.Titles | app/widgets/GroupCategoryCrumbs.js:188 | one title per crumb, in trail order: the category title each crumb was created with |
| GroupCategoryCrumbs.Texts | app/widgets/GroupCategoryCrumbs.js:241-243 | one text per crumb, in trail order: the serialized `innerHTML` of its title |
| GroupCategoryCrumbs.PathOf | app/widgets/GroupCategoryCrumbs.js:241-245 | the path always starts with "/"; an empty trail gives "/", the root alone "/" plus its serialized title |
| Html.EscapeChar | app/widgets/GroupCategoryCrumbs.js:241-243 | every character other than "&", "<", ">" and the no-break space stands for itself; each of those four becomes a character reference, starting with "&" and ending with ";", that `Unescape` reads back as that character |
| Html.Escape | app/widgets/GroupCategoryCrumbs.js:241-243 | the serialization is at least as long as the text and adds only characters of the four references |
| Html.UnescapeEscape | app/widgets/GroupCategoryCrumbs.js:188-242 | reading the serialization of a title back gives the title |
| GroupCategoryCrumbs.SubCategoryMenu | app/widgets/GroupCategoryCrumbs.js:216-247 | a rebuild leaves the trail alone, rebuilds the menu for the given category and level, sets the value's category to that category and its path to the trail's path, and emits that value |
| GroupCategoryCrumbs.CreateCrumbNode | app/widgets/GroupCategoryCrumbs.js:184-193 | creating a crumb appends exactly one crumb with the given level, title and read-only flag, rebuilds the menu for its category at its level, and emits the new trail's path with that category |
| GroupCategoryCrumbs.PickSubCategory | app/widgets/GroupCategoryCrumbs.js:234-236 | picking menu entry i appends exactly one non-read-only crumb, at the menu's level + 1, with the entry's title, and keeps the earlier crumbs; it rebuilds the menu for the entry at that level and emits the new path with the entry; the schema, its source and the depth limit are kept |
| GroupCategoryCrumbs.PathSnoc | app/widgets/GroupCategoryCrumbs.js:241-245 | appending a crumb to a non-empty trail appends "/" and its serialized title to the path |
| GroupCategoryCrumbs.PickExtendsTrail | app/widgets/GroupCategoryCrumbs.js:225-236 | the crumb a pick appends continues levels 1..k, is a sub-category of the last crumb picked from it, and stays within `maxDepth` |
| GroupCategoryCrumbs.PickKeepsValid | app/widgets/GroupCategoryCrumbs.js:184-247 | a pick keeps the trail invariant, and the new path is the old path plus "/" and the picked title, serialized |
| GroupCategoryCrumbs.ClickCrumb | app/widgets/GroupCategoryCrumbs.js:195-207 | a non-read-only crumb at level L drops levels >= L and rebuilds its parent's menu at level L-1; the read-only crumb drops levels > L and rebuilds its own menu at level L; both emit the cut trail's path with that category; a crumb with no parent cuts the trail and only hides the menu, emitting nothing; the schema, its source and the depth limit are kept |
| GroupCategoryCrumbs.ClickKeepsValid | app/widgets/GroupCategoryCrumbs.js:195-207 | on a valid trail, clicking the crumb at index j keeps the invariant: the read-only crumb leaves the first j+1 crumbs, any other crumb the first j |
| GroupCategoryCrumbs.ApplyKeepsValid | app/widgets/GroupCategoryCrumbs.js:195-236 | any single pick or click keeps the trail invariant |
| GroupCategoryCrumbs.RunKeepsValid | app/widgets/GroupCategoryCrumbs.js:184-247 | after any sequence of picks and clicks the levels are exactly 1..k and no deeper than `maxDepth`, and the value is the trail's path |
| GroupCategoryCrumbs.ValuePathRoundTrip | app/widgets/GroupCategoryCrumbs.js:241-245 | when no title contains "/", splitting the value's path gives the crumbs' serialized titles in trail order, and reading those back gives the titles |
| Strings.SplitJoin | app/widgets/GroupCategoryCrumbs.js:245 | joining a non-empty list of separator-free parts and splitting at the separator gives back the list |
| Strings.JoinSnoc | app/widgets/GroupCategoryCrumbs.js:245 | joining one more part appends the separator and that part to the joined string |
| ViewSync.Followers | app/Main.js:711-716 | the views driven by view i are all others, in their original order; there are n-1 of them |
| ViewSync.FollowersAllSet | app/Main.js:674-678 | after setting the followers of view i to a viewpoint, every entry of i's follower list holds it |
| ViewSync.Clear | app/Main.js:658-668 | `clear()` removes all handles of the synchronizer and leaves everything else as it was |
| ViewSync.OnInteractOrAnimate | app/Main.js:670-699 | a falsy value does nothing. A truthy one clears every other synchronizer. If this one is scheduled or mirroring, no viewpoint moves. A fresh start schedules it and copies its viewpoint to every view unless it is animating, and with an animation copies nothing |
| ViewSync.OnTimer | app/Main.js:681-688 | the timer of a scheduled synchronizer drops the schedule and installs the viewpoint watch; a cancelled timer changes nothing |
| ViewSync.OnViewpointChange | app/Main.js:683-687 | while mirroring, a leader move sets every view to the new viewpoint; otherwise only the moved view changes |
| ViewSync.OnStationary | app/Main.js:698 | the view becoming stationary returns its synchronizer to idle and touches nothing else |
| ViewSync.RunKeepsOneLeader | app/Main.js:670-699 | from a state with at most one active synchronizer, no sequence of events ever makes two active |
| ViewSync.InitialOneLeader | app/Main.js:711-731 | starting from the state `synchronizeViews` sets up, every synchronizer idle, no event sequence ever makes two synchronizers active |
| ViewSync.IdleUntilRestart | app/Main.js:658-699 | once cleared, a synchronizer stays idle until its own view starts interacting or animating again, so its viewpoint watch is not reinstalled before then |
| ViewSync.StartTimerMirror | app/Main.js:670-688 | a fresh start, then the timer, then a leader move leaves the leader mirroring, every other synchronizer idle and every view at the leader's new viewpoint |
| GroupItems.LayersQuery | app/Main.js:883 | the layer clause is the fixed service/type-keyword filter followed by the locale and ")", and the locale is read back from between them |
| GroupItems.SearchQuery | app/Main.js:885-886 | for non-empty text the query is "(", the text, ") AND ", then "(base)" for the layer clause base; for empty text it is "(base)" alone |
| GroupItems.SearchQueryRoundTrip | app/Main.js:885-886 | the search text is recovered from the query built from it, for empty and non-empty text alike |
| GroupItems.GroupItemsQuery | app/Main.js:872-898 | categories are present exactly when a schema exists and the path is non-empty, and are then exactly [path]; the query is the search query over the locale's layer clause; sort by "num-views" when checked, else "modified"; order "desc"; 100 items from `start` |
| GroupItems.CategoryFilterFollowsTrail | app/Main.js:872-878 | for a valid crumb widget, the item query filters by exactly the trail's path |
| GroupItems.SnippetText | app/Main.js:997 | a missing or empty snippet becomes the placeholder text; any other is kept |
| GroupItems.ShownSnippet | app/Main.js:996-1000 | text shorter than 160 characters is shown unchanged; text of 160 characters or more is its first 160 characters followed by "...", so at most 163 characters |
| GroupItems.ShownSnippetPrefix | app/Main.js:996-1000 | the shown text starts with the original's first (up to 160) characters |
| GroupItems.ShownSnippetIdempotent | app/Main.js:996-1000 | cutting the shown text again changes nothing |
| GroupItems.ItemCardSnippet | app/Main.js:995-1002 | the card's tooltip is the full snippet text and the shown text is its cut form |

## Left out

- All DOM construction, CSS class toggling and the calcite drop-down set-up (`initializeUI`, `destroy`, the label and the "no categories" warning node). These are UI only. `initializeUI` enters the model in two ways. Without a container (`hasContainer` false) it rejects and no crumb is made. With one, it builds new crumb and drop-down nodes, so the trail starts empty and the menu hidden.
- The rejected promises in `fetchCategorySchema`. They are not returned, so the caller sees no schema. The model returns `None`.
- Setting a group with no group (`SetPortalGroup` with `None`). The source then calls `.then` on `undefined` and throws, so the model leaves the widget unchanged.
- The exception from an empty schema from the organisation. `initializeUI` has already replaced the crumb and drop-down nodes, then `categorySchema[0]` is `undefined` and the crumb creation throws. The model keeps the state reached before the throw: an empty trail, a hidden menu, nothing emitted.
- The root's parent is the group with the whole schema. The root is read-only and so never reopens that parent menu. Root categories after the first are therefore never offered, and the model keeps that.
- GroupCategoryCrumbs.Texts: a title is taken to be plain text. The browser parses a title holding markup (`<b>`) or a character reference (`&amp;`) as HTML when it sets `innerHTML`, and serializes the parsed nodes back. The model serializes the raw title instead, so for such titles the path it gives differs from the browser's. HTML parsing is not part of this model.
- GroupCategoryCrumbs.RemoveCrumbs: its own contract states only that survivors are below the level. `RemoveCrumbsExactly` states which crumbs survive. `RemoveCrumbsPrefix` states that they keep their order, but only for trails whose levels are 1..k, which is every trail the widget reaches.
- `maxDepth` is a JavaScript Number; the model takes an integer.
- The spin tools, opacity sliders, map-viewer URL building and `window.open`. They are floating-point camera numerics driven by animation frames, or browser I/O.
- The `remove` handles returned by `synchronizeView` and `synchronizeViews`. The viewer never calls them.
- Timing of the zero-delay timer. It is the explicit `TimerFires` event.
- The order in which the SDK runs the watchers of one property change. For a truthy interact/animation event on view i, the model applies the clears of the other synchronizers and i's own start rule together. The two do interact: i's start copies its viewpoint into the other views while their synchronizers are being cleared. If a cleared synchronizer j were still mirroring when that copy reached view j, its watch would copy the same viewpoint (i's) to every view, i's included. So every view ends at i's viewpoint in either order, and the model's result is the same.
- The stationary watch of a synchronizer. Its `whenTrue` could fire at once if the view were already stationary. A view that has just started interacting is not stationary, so this case does not arise and the model leaves it out.
- Viewpoints are a type parameter. Copying a viewpoint is an assignment, not a camera computation.
- Portal, identity and SDK calls (`queryGroups`, `queryItems`, `fetchCategorySchema` on the SDK objects, `Layer.fromPortalItem`, sharing requests). Their results enter the model only as inputs (`Group`, `Portal`). Cancelling an in-flight item query is not modelled.
- String lengths. JavaScript measures strings in UTF-16 code units; the model counts `char`s. The search text is the input field's value, always a string.
- Notification banners, sign-in, favourites, the layer list and the results counters. These are event plumbing with no state worth proving.

Two behaviours of the synchronisation code worth noting, both modelled:
- the comment at app/Main.js:690 speaks only of another view starting to interact, but the watch at app/Main.js:692 fires on `interacting,animation`, so propagation also stops when another view starts animating;
- the initial viewpoint copy at app/Main.js:674-678 runs only when `view.animation` is not set, so a start by animation copies nothing until the viewpoint watch is installed.

=== FILE: crumbs.dfy ===
/**
 The category breadcrumb widget of the group content viewer: a trail of
 crumbs (root category first, then one crumb per picked sub-category) and a
 drop-down menu listing the sub-categories of the last crumb. Every menu
 rebuild recomputes the widget's `value` (the slash-separated path of the
 trail and the menu's category) and emits it as a `change` event.

 The DOM is replaced by plain values: the trail is a sequence of crumbs, the
 drop-down is `Menu`, the emitted events are the log `changes`, and every
 handler is a pure function from widget to widget.
 */
module GroupCategoryCrumbs {
  import opened Wrappers
  import Strings
  import Html

  /** A category of a category schema: a title, a description and its sub-categories. */
  datatype Category = Category(title: string, description: string, categories: seq<Category>)

  /** The portal that owns a group, with its organisation-wide category schema. */
  datatype Portal = Portal(hasCategorySchema: bool, categorySchema: seq<Category>)

  /** A portal group with its own (possibly empty) category schema. */
  datatype Group = Group(title: string, description: string, categorySchema: seq<Category>, portal: Portal)

  /**
   One crumb of the trail, with what its click handler captured: its level,
   whether it is read-only, its category and the category it was picked from.
   */
  datatype Crumb = Crumb(level: int, title: string, readOnly: bool, category: Category, parent: Option<Category>)

  /** The widget's `value`: the selected path and the category of the current menu. */
  datatype Value = Value(path: Option<string>, category: Option<Category>)

  /** The drop-down: hidden, or showing the sub-categories of `category` for the crumb at `level`. */
  datatype Menu = Closed | Open(category: Category, level: int, items: seq<Category>)

  /** Where the category schema came from: "none", "PortalGroup" or "Organization". */
  datatype Source = NoSource | PortalGroupSource | OrganizationSource

  datatype Widget = Widget(
    maxDepth: int,
    source: Source,
    schema: Option<seq<Category>>,
    value: Value,
    trail: seq<Crumb>,
    menu: Menu,
    changes: seq<Value>)

  /** Default depth limit of the sub-category menus. */
  const DefaultMaxDepth: int := 4

  /** A fresh widget with the property defaults: depth 4, source "none", a null path and category. */
  function NewWidget(): (w: Widget)
    ensures w.maxDepth == 4 && w.source == NoSource && w.value == Value(None, None)
    ensures w.schema == None && w.trail == [] && w.menu == Closed && w.changes == []
  {
    Widget(DefaultMaxDepth, NoSource, None, Value(None, None), [], Closed, [])
  }

  /** The titles of the crumbs, in trail order. */
  function Titles(trail: seq<Crumb>): (r: seq<string>)
    ensures |r| == |trail|
    ensures forall k :: 0 <= k < |trail| ==> r[k] == trail[k].title
  {
    seq(|trail|, k requires 0 <= k < |trail| => trail[k].title)
  }

  /**
   The text of each crumb as read back from its `innerHTML`: the HTML
   serialization of its title, in trail order.
   */
  function Texts(trail: seq<Crumb>): (r: seq<string>)
    ensures |r| == |trail|
    ensures forall k :: 0 <= k < |trail| ==> r[k] == Html.Escape(trail[k].title)
  {
    seq(|trail|, k requires 0 <= k < |trail| => Html.Escape(trail[k].title))
  }

  /**
   The path of a trail: "/" followed by the crumb texts joined by "/"; the
   root alone gives "/" and its serialized title.
   */
  function PathOf(trail: seq<Crumb>): (p: string)
    ensures |p| >= 1 && p[0] == '/'
    ensures |trail| == 0 ==> p == "/"
    ensures |trail| == 1 ==> p == "/" + Html.Escape(trail[0].title)
  {
    "/" + Strings.Join(Texts(trail), '/')
  }

  /** The crumb texts read back from a path built by `PathOf`. */
  function PathTitles(path: string): (r: seq<string>)
    requires |path| >= 1
  {
    Strings.Split(path[1..], '/')
  }

  /** Each text of a sequence read back from its serialization. */
  function UnescapeAll(texts: seq<string>): (r: seq<string>)
    ensures |r| == |texts|
    ensures forall k :: 0 <= k < |texts| ==> r[k] == Html.Unescape(texts[k])
  {
    seq(|texts|, k requires 0 <= k < |texts| => Html.Unescape(texts[k]))
  }

  /**
   The drop-down a rebuild produces: shown with every sub-category exactly
   when the category has one and the level is below the depth limit.
   */
  function BuildMenu(category: Category, level: int, maxDepth: int): (m: Menu)
    ensures m.Open? <==> |category.categories| > 0 && level < maxDepth
    ensures m.Open? ==> m.category == category && m.level == level && m.items == category.categories
  {
    if |category.categories| > 0 && level < maxDepth then Open(category, level, category.categories)
    else Closed
  }

  /** The crumbs whose level is below `level`, in their original order. */
  function RemoveCrumbs(trail: seq<Crumb>, level: int): (r: seq<Crumb>)
    ensures |r| <= |trail|
    ensures forall k :: 0 <= k < |r| ==> r[k].level < level
  {
    if |trail| == 0 then []
    else if trail[|trail| - 1].level >= level then RemoveCrumbs(trail[..|trail| - 1], level)
    else RemoveCrumbs(trail[..|trail| - 1], level) + [trail[|trail| - 1]]
  }

  /** A crumb survives `RemoveCrumbs` exactly when it was in the trail with a level below `level`. */
  lemma {:induction false} RemoveCrumbsExactly(trail: seq<Crumb>, level: int)
    ensures forall c :: c in RemoveCrumbs(trail, level) <==> c in trail && c.level < level
    decreases |trail|
  {
    if |trail| > 0 {
      var init := trail[..|trail| - 1];
      RemoveCrumbsExactly(init, level);
      assert trail == init + [trail[|trail| - 1]];
    }
  }

  /**
   Rebuild of the sub-category menu for `category` at `level`: the drop-down is
   rebuilt, and the new value (path of the trail, the menu's category) is
   stored and emitted. The trail is untouched.
   */
  function SubCategoryMenu(w: Widget, category: Category, level: int): (r: Widget)
    ensures r.trail == w.trail && r.maxDepth == w.maxDepth && r.source == w.source && r.schema == w.schema
    ensures r.menu == BuildMenu(category, level, w.maxDepth)
    ensures r.menu.Open? <==> |category.categories| > 0 && level < w.maxDepth
    ensures r.menu.Open? ==> r.menu.category == category && r.menu.level == level && r.menu.items == category.categories
    ensures r.value.category == Some(category)
    ensures r.value.path == Some(PathOf(w.trail))
    ensures r.changes == w.changes + [r.value]
  {
    var value := Value(Some(PathOf(w.trail)), Some(category));
    w.(menu := BuildMenu(category, level, w.maxDepth), value := value, changes := w.changes + [value])
  }

  /** Appends a crumb for `category` at `level` and rebuilds the menu for it. */
  function CreateCrumbNode(w: Widget, parent: Option<Category>, category: Category, level: int, readOnly: bool): (r: Widget)
    ensures r.trail == w.trail + [Crumb(level, category.title, readOnly, category, parent)]
    ensures r.maxDepth == w.maxDepth && r.source == w.source && r.schema == w.schema
    ensures r.menu == BuildMenu(category, level, w.maxDepth)
    ensures r.value == Value(Some(PathOf(r.trail)), Some(category))
    ensures r.changes == w.changes + [r.value]
  {
    var trail := w.trail + [Crumb(level, category.title, readOnly, category, parent)];
    SubCategoryMenu(w.(trail := trail), category, level)
  }

  /** Outcome of fetching a group's category schema: the widget and the schema, if any. */
  datatype Fetched = Fetched(widget: Widget, schema: Option<seq<Category>>)

  /**
   The source choice of fetching the schema: the group's own schema when it is
   non-empty, else the organisation's when the portal has one; else the
   current value is emitted unchanged and there is no schema. Without a group
   there is no schema either.
   */
  function FetchCategorySchema(w: Widget, group: Option<Group>): (r: Fetched)
    ensures r.widget.trail == w.trail && r.widget.value == w.value && r.widget.menu == w.menu
    ensures group == None ==> r == Fetched(w, None)
    ensures group.Some? && |group.value.categorySchema| > 0 ==>
      r.widget.source == PortalGroupSource && r.schema == Some(group.value.categorySchema) && r.widget.changes == w.changes
    ensures group.Some? && |group.value.categorySchema| == 0 && group.value.portal.hasCategorySchema ==>
      r.widget.source == OrganizationSource && r.schema == Some(group.value.portal.categorySchema) && r.widget.changes == w.changes
    ensures group.Some? && |group.value.categorySchema| == 0 && !group.value.portal.hasCategorySchema ==>
      r.widget.source == w.source && r.schema == None && r.widget.changes == w.changes + [w.value]
  {
    match group
    case None => Fetched(w, None)
    case Some(g) =>
      if |g.categorySchema| > 0 then Fetched(w.(source := PortalGroupSource), Some(g.categorySchema))
      else if g.portal.hasCategorySchema then Fetched(w.(source := OrganizationSource), Some(g.portal.categorySchema))
      else Fetched(w.(changes := w.changes + [w.value]), None)
  }

  /** The hidden category whose sub-categories are the whole schema; the root crumb's parent. */
  function GroupParent(group: Group, schema: seq<Category>): (r: Category) {
    Category(group.title, group.description, schema)
  }

  /**
   Storing a fetched schema. When there is one and the widget has a container,
   the UI is rebuilt: the trail starts empty and the drop-down is hidden. If
   the schema has a first category, the trail restarts with a read-only root
   crumb at level 1 for it; an empty schema leaves the trail empty (the crumb
   creation throws on the missing first category).
   */
  function SetCategorySchema(w: Widget, group: Group, schema: Option<seq<Category>>, hasContainer: bool): (r: Widget)
    ensures r.schema == schema && r.source == w.source && r.maxDepth == w.maxDepth
    ensures schema.Some? && hasContainer && |schema.value| > 0 ==>
      && |r.trail| == 1
      && r.trail[0] == Crumb(1, schema.value[0].title, true, schema.value[0], Some(GroupParent(group, schema.value)))
      && r.menu == BuildMenu(schema.value[0], 1, w.maxDepth)
      && r.value == Value(Some(PathOf(r.trail)), Some(schema.value[0]))
      && r.changes == w.changes + [r.value]
    ensures schema.Some? && hasContainer && |schema.value| == 0 ==>
      r == w.(schema := schema, trail := [], menu := Closed)
    ensures !(schema.Some? && hasContainer) ==> r == w.(schema := schema)
  {
    var w1 := w.(schema := schema);
    if schema.Some? && hasContainer then
      var reset := w1.(trail := [], menu := Closed);
      if |schema.value| > 0 then
        CreateCrumbNode(reset, Some(GroupParent(group, schema.value)), schema.value[0], 1, true)
      else reset
    else w1
  }

  /**
   Setting the widget's group: fetch its schema, then store it. Without a
   group nothing happens; a fetched non-empty schema restarts the trail at
   its first category; no schema clears the stored one and leaves the trail.
   */
  function SetPortalGroup(w: Widget, group: Option<Group>, hasContainer: bool): (r: Widget)
    ensures group.None? ==> r == w
    ensures group.Some? && |group.value.categorySchema| > 0 ==>
      r.source == PortalGroupSource && r.schema == Some(group.value.categorySchema)
    ensures group.Some? && |group.value.categorySchema| == 0 && group.value.portal.hasCategorySchema ==>
      r.source == OrganizationSource && r.schema == Some(group.value.portal.categorySchema)
    ensures group.Some? && |group.value.categorySchema| == 0 && !group.value.portal.hasCategorySchema ==>
      r == w.(schema := None, changes := w.changes + [w.value])
    ensures group.Some? && r.schema.Some? && |r.schema.value| > 0 && hasContainer ==>
      && |r.trail| == 1
      && r.trail[0] == Crumb(1, r.schema.value[0].title, true, r.schema.value[0],
                             Some(GroupParent(group.value, r.schema.value)))
      && r.menu == BuildMenu(r.schema.value[0], 1, w.maxDepth)
      && r.value == Value(Some(PathOf(r.trail)), Some(r.schema.value[0]))
      && r.changes == w.changes + [r.value]
    ensures group.Some? && r.schema == Some([]) && hasContainer ==>
      r.trail == [] && r.menu == Closed && r.changes == w.changes
    ensures r.maxDepth == w.maxDepth
  {
    match group
    case None => w
    case Some(g) =>
      var f := FetchCategorySchema(w, group);
      SetCategorySchema(f.widget, g, f.schema, hasContainer)
  }

  /** Picking the `i`-th entry of the open menu: a non-read-only crumb one level deeper. */
  function PickSubCategory(w: Widget, i: nat): (r: Widget)
    requires w.menu.Open? && i < |w.menu.items|
    ensures |r.trail| == |w.trail| + 1 && r.trail[..|w.trail|] == w.trail
    ensures r.trail[|w.trail|].level == w.menu.level + 1
    ensures r.trail[|w.trail|].title == w.menu.items[i].title
    ensures !r.trail[|w.trail|].readOnly
    ensures r.value == Value(Some(PathOf(r.trail)), Some(w.menu.items[i]))
    ensures r.menu == BuildMenu(w.menu.items[i], w.menu.level + 1, w.maxDepth)
    ensures r.changes == w.changes + [r.value]
    ensures r.maxDepth == w.maxDepth && r.source == w.source && r.schema == w.schema
  {
    var r := CreateCrumbNode(w, Some(w.menu.category), w.menu.items[i], w.menu.level + 1, false);
    assert r.trail[..|w.trail|] == w.trail;
    r
  }

  /**
   Click on the crumb at index `j`. A non-read-only crumb at level L drops the
   crumbs at levels L and deeper and reopens its parent's menu at L - 1; the
   read-only crumb drops the crumbs below it and reopens its own menu.
   */
  function ClickCrumb(w: Widget, j: nat): (r: Widget)
    requires j < |w.trail|
    ensures w.trail[j].readOnly ==>
      (r.trail == RemoveCrumbs(w.trail, w.trail[j].level + 1) && r.value.category == Some(w.trail[j].category))
    ensures !w.trail[j].readOnly ==> r.trail == RemoveCrumbs(w.trail, w.trail[j].level)
    ensures w.trail[j].readOnly ==> r.menu == BuildMenu(w.trail[j].category, w.trail[j].level, w.maxDepth)
    ensures !w.trail[j].readOnly && w.trail[j].parent.Some? ==>
      r.value.category == w.trail[j].parent
      && r.menu == BuildMenu(w.trail[j].parent.value, w.trail[j].level - 1, w.maxDepth)
    ensures !w.trail[j].readOnly && w.trail[j].parent.None? ==> r.menu == Closed && r.value == w.value
    ensures w.trail[j].readOnly || w.trail[j].parent.Some? ==>
      r.value.path == Some(PathOf(r.trail)) && r.changes == w.changes + [r.value]
    ensures !w.trail[j].readOnly && w.trail[j].parent.None? ==> r.changes == w.changes
    ensures r.maxDepth == w.maxDepth && r.source == w.source && r.schema == w.schema
  {
    var c := w.trail[j];
    if !c.readOnly then
      var w1 := w.(trail := RemoveCrumbs(w.trail, c.level));
      match c.parent
      case Some(p) => SubCategoryMenu(w1, p, c.level - 1)
      case None => w1.(menu := Closed)
    else
      SubCategoryMenu(w.(trail := RemoveCrumbs(w.trail, c.level + 1)), c.category, c.level)
  }

  // ---------------------------------------------------------------------------
  // The trail invariant
  // ---------------------------------------------------------------------------

  /** Levels are exactly 1, 2, ..., |trail| in order. */
  predicate ContiguousLevels(trail: seq<Crumb>) {
    forall k :: 0 <= k < |trail| ==> trail[k].level == k + 1
  }

  /** Each crumb after the root is a sub-category of the crumb before it and was picked from it. */
  predicate Linked(trail: seq<Crumb>) {
    && (|trail| >= 1 ==> trail[0].readOnly && trail[0].parent.Some? && trail[0].title == trail[0].category.title)
    && forall k :: 1 <= k < |trail| ==>
         && !trail[k].readOnly
         && trail[k].parent == Some(trail[k - 1].category)
         && trail[k].title == trail[k].category.title
         && trail[k].category in trail[k - 1].category.categories
  }

  /** The depth bound: no crumb is deeper than `maxDepth`, except the root, which always exists. */
  predicate WithinDepth(trail: seq<Crumb>, maxDepth: int) {
    |trail| == 1 || |trail| <= maxDepth
  }

  /** The state every handler keeps once the root crumb exists. */
  predicate Valid(w: Widget) {
    && w.schema.Some?
    && |w.trail| >= 1
    && ContiguousLevels(w.trail)
    && Linked(w.trail)
    && WithinDepth(w.trail, w.maxDepth)
    && w.menu == BuildMenu(w.trail[|w.trail| - 1].category, |w.trail|, w.maxDepth)
    && w.value == Value(Some(PathOf(w.trail)), Some(w.trail[|w.trail| - 1].category))
    && |w.changes| >= 1 && w.changes[|w.changes| - 1] == w.value
  }

  /** A trail whose levels are all below `level` loses nothing. */
  lemma {:induction false} RemoveCrumbsNone(trail: seq<Crumb>, level: int)
    requires forall k :: 0 <= k < |trail| ==> trail[k].level < level
    ensures RemoveCrumbs(trail, level) == trail
    decreases |trail|
  {
    if |trail| > 0 {
      var init := trail[..|trail| - 1];
      RemoveCrumbsNone(init, level);
      assert init + [trail[|trail| - 1]] == trail;
    }
  }

  /**
   Under contiguous levels, removing from `level` on keeps exactly the first
   `level - 1` crumbs, in their original order.
   */
  lemma {:induction false} RemoveCrumbsPrefix(trail: seq<Crumb>, level: int)
    requires ContiguousLevels(trail)
    requires 1 <= level <= |trail| + 1
    ensures RemoveCrumbs(trail, level) == trail[..level - 1]
    decreases |trail|
  {
    if level - 1 == |trail| {
      RemoveCrumbsNone(trail, level);
    } else {
      var init := trail[..|trail| - 1];
      assert ContiguousLevels(init);
      RemoveCrumbsPrefix(init, level);
      assert init[..level - 1] == trail[..level - 1];
    }
  }

  /** Prefixes of a trail keep the structural parts of the invariant. */
  lemma PrefixKeepsShape(trail: seq<Crumb>, n: nat)
    requires ContiguousLevels(trail) && Linked(trail)
    requires 1 <= n <= |trail|
    ensures ContiguousLevels(trail[..n]) && Linked(trail[..n])
  {
  }

  /** The root crumb created from a group's schema starts a valid widget. */
  lemma SetPortalGroupValid(w: Widget, group: Group, hasContainer: bool)
    requires hasContainer
    requires |group.categorySchema| > 0 || (group.portal.hasCategorySchema && |group.portal.categorySchema| > 0)
    ensures Valid(SetPortalGroup(w, Some(group), hasContainer))
    ensures SetPortalGroup(w, Some(group), hasContainer).trail[0].level == 1
    ensures SetPortalGroup(w, Some(group), hasContainer).trail[0].readOnly
  {
  }

  /** Adding one crumb to a non-empty trail adds "/" and its serialized title to the path. */
  lemma PathSnoc(trail: seq<Crumb>, c: Crumb)
    requires |trail| >= 1
    ensures PathOf(trail + [c]) == PathOf(trail) + "/" + Html.Escape(c.title)
  {
    assert Texts(trail + [c]) == Texts(trail) + [Html.Escape(c.title)];
    Strings.JoinSnoc(Texts(trail), Html.Escape(c.title), '/');
  }

  /** A crumb that continues the levels and was picked from the last crumb keeps the trail's shape. */
  lemma AppendKeepsShape(trail: seq<Crumb>, c: Crumb)
    requires ContiguousLevels(trail) && Linked(trail) && |trail| >= 1
    requires c.level == |trail| + 1 && !c.readOnly && c.title == c.category.title
    requires c.parent == Some(trail[|trail| - 1].category)
    requires c.category in trail[|trail| - 1].category.categories
    ensures ContiguousLevels(trail + [c]) && Linked(trail + [c])
  {
  }

  /** The crumb a pick appends continues the levels, links to the last crumb and stays within depth. */
  lemma PickExtendsTrail(w: Widget, i: nat)
    requires Valid(w) && w.menu.Open? && i < |w.menu.items|
    ensures ContiguousLevels(PickSubCategory(w, i).trail)
    ensures Linked(PickSubCategory(w, i).trail)
    ensures WithinDepth(PickSubCategory(w, i).trail, w.maxDepth)
  {
    var last := w.trail[|w.trail| - 1];
    assert w.menu.category == last.category && w.menu.level == |w.trail|;
    var item := w.menu.items[i];
    AppendKeepsShape(w.trail, Crumb(w.menu.level + 1, item.title, false, item, Some(w.menu.category)));
  }

  /** Picking a sub-category keeps the invariant and extends the path by "/" and its serialized title. */
  lemma PickKeepsValid(w: Widget, i: nat)
    requires Valid(w) && w.menu.Open? && i < |w.menu.items|
    ensures Valid(PickSubCategory(w, i))
    ensures PickSubCategory(w, i).value.path == Some(w.value.path.value + "/" + Html.Escape(w.menu.items[i].title))
  {
    var r := PickSubCategory(w, i);
    var n := |w.trail|;
    assert r.trail == w.trail + [r.trail[n]];
    PickExtendsTrail(w, i);
    PathSnoc(w.trail, r.trail[n]);
  }

  /** Clicking any crumb keeps the invariant; it cuts the trail back to a prefix. */
  lemma ClickKeepsValid(w: Widget, j: nat)
    requires Valid(w) && j < |w.trail|
    ensures Valid(ClickCrumb(w, j))
    ensures w.trail[j].readOnly ==> ClickCrumb(w, j).trail == w.trail[..j + 1]
    ensures !w.trail[j].readOnly ==> ClickCrumb(w, j).trail == w.trail[..j]
  {
    var c := w.trail[j];
    if c.readOnly {
      assert j == 0;
      RemoveCrumbsPrefix(w.trail, c.level + 1);
      PrefixKeepsShape(w.trail, j + 1);
    } else {
      assert j >= 1;
      RemoveCrumbsPrefix(w.trail, c.level);
      PrefixKeepsShape(w.trail, j);
      assert w.trail[..j][j - 1] == w.trail[j - 1];
    }
  }

  /** A user input on the widget: pick the `i`-th menu entry, or click the `j`-th crumb. */
  datatype Input = Pick(i: nat) | Click(j: nat)

  /** Applies one input; an input that names no visible entry or crumb does nothing. */
  function Apply(w: Widget, input: Input): (r: Widget)
    ensures r.maxDepth == w.maxDepth
  {
    match input
    case Pick(i) => if w.menu.Open? && i < |w.menu.items| then PickSubCategory(w, i) else w
    case Click(j) => if j < |w.trail| then ClickCrumb(w, j) else w
  }

  /** Applies inputs in order; no input changes the depth limit. */
  function Run(w: Widget, inputs: seq<Input>): (r: Widget)
    ensures r.maxDepth == w.maxDepth
    decreases |inputs|
  {
    if |inputs| == 0 then w else Run(Apply(w, inputs[0]), inputs[1..])
  }

  /** Any single input keeps the invariant. */
  lemma ApplyKeepsValid(w: Widget, input: Input)
    requires Valid(w)
    ensures Valid(Apply(w, input))
  {
    match input {
      case Pick(i) =>
        if w.menu.Open? && i < |w.menu.items| {
          PickKeepsValid(w, i);
        }
      case Click(j) =>
        if j < |w.trail| {
          ClickKeepsValid(w, j);
        }
    }
  }

  /**
   After any sequence of picks and clicks the trail levels are exactly 1..k,
   no crumb is deeper than the depth limit, and the value's path is the trail's path.
   */
  lemma {:induction false} RunKeepsValid(w: Widget, inputs: seq<Input>)
    requires Valid(w)
    ensures Valid(Run(w, inputs))
    ensures ContiguousLevels(Run(w, inputs).trail)
    ensures WithinDepth(Run(w, inputs).trail, w.maxDepth)
    decreases |inputs|
  {
    if |inputs| > 0 {
      ApplyKeepsValid(w, inputs[0]);
      RunKeepsValid(Apply(w, inputs[0]), inputs[1..]);
    }
  }

  /** Serializing titles that hold no "/" gives texts that hold none either. */
  lemma TextsNoSlash(trail: seq<Crumb>)
    requires Strings.NoneContains(Titles(trail), '/')
    ensures Strings.NoneContains(Texts(trail), '/')
  {
  }

  /**
   In a valid widget whose titles hold no "/", the value's path splits into
   the crumbs' serialized titles, and reading those back gives the titles.
   */
  lemma ValuePathRoundTrip(w: Widget)
    requires Valid(w)
    requires Strings.NoneContains(Titles(w.trail), '/')
    ensures PathTitles(w.value.path.value) == Texts(w.trail)
    ensures UnescapeAll(PathTitles(w.value.path.value)) == Titles(w.trail)
  {
    assert PathOf(w.trail)[1..] == Strings.Join(Texts(w.trail), '/');
    TextsNoSlash(w.trail);
    Strings.SplitJoin(Texts(w.trail), '/');
    forall k | 0 <= k < |w.trail|
      ensures Html.Unescape(Texts(w.trail)[k]) == w.trail[k].title
    {
      Html.UnescapeEscape(w.trail[k].title);
    }
  }
}

=== FILE: html.dfy ===
/**
 The text a browser reads back from an element's `innerHTML` when the element
 holds nothing but one text node: the HTML serialization of that text, in
 which "&", "<", ">" and the no-break space are written as character
 references (the "serializing HTML fragments" algorithm of the WHATWG HTML
 Living Standard, escaping a text node's data).
 */
module Html {
  /** The no-break space, U+00A0. */
  const NoBreakSpace: char := '\U{00A0}'

  /** The characters the serialization of a text node may add. */
  const ReferenceChars: string := "&;amplgtnbs"

  /** The serialization of one character of a text node. */
  function EscapeChar(c: char): (r: string)
    ensures |r| >= 1
    ensures c !in "&<>" && c != NoBreakSpace ==> r == [c]
    ensures c in "&<>" || c == NoBreakSpace ==> r[0] == '&' && r[|r| - 1] == ';'
  {
    if c == '&' then "&amp;"
    else if c == '<' then "&lt;"
    else if c == '>' then "&gt;"
    else if c == NoBreakSpace then "&nbsp;"
    else [c]
  }

  /** The serialization of a text node: every character escaped in turn. */
  function Escape(s: string): (r: string)
    ensures |r| >= |s|
    ensures forall c :: c in r ==> c in s || c in ReferenceChars
  {
    if |s| == 0 then "" else EscapeChar(s[0]) + Escape(s[1..])
  }

  /** Reads the text back: the four character references become their characters again. */
  function Unescape(s: string): (r: string)
    decreases |s|
  {
    if |s| == 0 then ""
    else if s[0] != '&' then [s[0]] + Unescape(s[1..])
    else if |s| >= 5 && s[..5] == "&amp;" then "&" + Unescape(s[5..])
    else if |s| >= 4 && s[..4] == "&lt;" then "<" + Unescape(s[4..])
    else if |s| >= 4 && s[..4] == "&gt;" then ">" + Unescape(s[4..])
    else if |s| >= 6 && s[..6] == "&nbsp;" then [NoBreakSpace] + Unescape(s[6..])
    else [s[0]] + Unescape(s[1..])
  }

  lemma UnescapeAmp(rest: string)
    ensures Unescape("&amp;" + rest) == "&" + Unescape(rest)
  {
  }

  lemma UnescapeLt(rest: string)
    ensures Unescape("&lt;" + rest) == "<" + Unescape(rest)
  {
    var s := "&lt;" + rest;
    assert s[1] == 'l';
    assert s[..4] == "&lt;" && s[4..] == rest;
  }

  lemma UnescapeGt(rest: string)
    ensures Unescape("&gt;" + rest) == ">" + Unescape(rest)
  {
    var s := "&gt;" + rest;
    assert s[1] == 'g';
    assert s[..4] == "&gt;" && s[4..] == rest;
  }

  lemma UnescapeNbsp(rest: string)
    ensures Unescape("&nbsp;" + rest) == [NoBreakSpace] + Unescape(rest)
  {
    var s := "&nbsp;" + rest;
    assert s[1] == 'n';
    assert s[..6] == "&nbsp;" && s[6..] == rest;
  }

  /** Reading back the serialization of one character yields that character. */
  lemma UnescapeAfterChar(c: char, rest: string)
    ensures Unescape(EscapeChar(c) + rest) == [c] + Unescape(rest)
  {
    if c == '&' {
      UnescapeAmp(rest);
    } else if c == '<' {
      UnescapeLt(rest);
    } else if c == '>' {
      UnescapeGt(rest);
    } else if c == NoBreakSpace {
      UnescapeNbsp(rest);
    } else {
      assert ([c] + rest)[1..] == rest;
    }
  }

  /** The serialization of a text reads back as that text. */
  lemma {:induction false} UnescapeEscape(s: string)
    ensures Unescape(Escape(s)) == s
    decreases |s|
  {
    if |s| > 0 {
      var tail := Escape(s[1..]);
      assert Escape(s) == EscapeChar(s[0]) + tail;
      UnescapeAfterChar(s[0], tail);
      UnescapeEscape(s[1..]);
      assert [s[0]] + s[1..] == s;
    }
  }
}

=== FILE: item_query.dfy ===
/**
 The pure helpers of the viewer's group item search: the portal query string,
 the category and sort parameters of an item query, and the truncated item
 snippet shown on each item card.
 */
module GroupItems {
  import opened Wrappers
  import GroupCategoryCrumbs

  /** Items per page of a group item query. */
  const PageSize: int := 100

  /** Longest snippet shown in full on an item card. */
  const MaxChars: nat := 160

  /** Text shown for an item without a snippet. */
  const NoSnippet: string := "[No details available...]"

  /** The fixed part of the layer query, up to the locale clause. */
  const LayersQueryPrefix: string :=
    "type:Service AND typekeywords:(-\"Tool\" -\"Geodata Service\" -\"Globe Service\" -\"Database\" -\"Workflow\" -\"Service Definition\") AND (culture:"

  /** The query restricting results to service layers of the given locale. */
  function LayersQuery(locale: string): (q: string)
    ensures |q| == |LayersQueryPrefix| + |locale| + 1
    ensures q[..|LayersQueryPrefix|] == LayersQueryPrefix
    ensures q[|q| - |locale| - 1..] == locale + ")"
    ensures q[|LayersQueryPrefix|..|q| - 1] == locale
  {
    LayersQueryPrefix + locale + ")"
  }

  /** Length added around the layer query: "(" + text + ") AND (" + ... + ")" adds 9 characters. */
  const Wrapping: nat := 9

  /**
   The search query over the layer clause `base`: "(text) AND (base)" for a
   non-empty search text, "(base)" otherwise.
   */
  function SearchQuery(text: string, base: string): (q: string)
    ensures |text| > 0 ==> |q| == |text| + |base| + Wrapping
    ensures |text| == 0 ==> |q| == |base| + 2
    ensures q[0] == '(' && q[|q| - |base| - 2..] == "(" + base + ")"
    ensures |text| > 0 ==> q[1..|text| + 1] == text && q[|text| + 1..|text| + 7] == ") AND "
  {
    if |text| > 0 then "(" + text + ") AND (" + base + ")" else "(" + base + ")"
  }

  /**
   The search text read back from a search query over the layer clause
   `base`: empty when the query is the bare layer clause, else what lies
   between the leading "(" and the ") AND (" before the layer clause.
   */
  function SearchTextOf(q: string, base: string): (r: string) {
    if |q| <= |base| + Wrapping then "" else q[1..|q| - |base| - (Wrapping - 1)]
  }

  /** The search text is recovered from the query built from it. */
  lemma SearchQueryRoundTrip(text: string, base: string)
    ensures SearchTextOf(SearchQuery(text, base), base) == text
  {
  }

  /** The parameters of one portal item query. */
  datatype ItemsQuery = ItemsQuery(
    start: int,
    num: int,
    categories: Option<seq<string>>,
    query: string,
    sortField: string,
    sortOrder: string)

  /**
   The item query of a search: the category filter only when the widget has a
   schema and a non-empty path; sorted by views when the toggle is checked,
   by modification date otherwise; always descending.
   */
  function GroupItemsQuery(hasSchema: bool, categoryPath: Option<string>, sortByViews: bool,
                           searchText: string, locale: string, start: int): (r: ItemsQuery)
    ensures r.categories.Some? <==> hasSchema && categoryPath.Some? && |categoryPath.value| > 0
    ensures r.categories.Some? ==> r.categories.value == [categoryPath.value]
    ensures r.sortField == (if sortByViews then "num-views" else "modified")
    ensures r.sortOrder == "desc"
    ensures r.start == start && r.num == PageSize
    ensures r.query == SearchQuery(searchText, LayersQuery(locale))
    ensures SearchTextOf(r.query, LayersQuery(locale)) == searchText
  {
    var categories :=
      if hasSchema && categoryPath.Some? && |categoryPath.value| > 0 then Some([categoryPath.value]) else None;
    SearchQueryRoundTrip(searchText, LayersQuery(locale));
    ItemsQuery(start, PageSize, categories, SearchQuery(searchText, LayersQuery(locale)),
               if sortByViews then "num-views" else "modified", "desc")
  }

  /** The query made after the category widget changes: it filters by exactly the trail's path. */
  lemma CategoryFilterFollowsTrail(w: GroupCategoryCrumbs.Widget, sortByViews: bool, searchText: string, locale: string, start: int)
    requires GroupCategoryCrumbs.Valid(w)
    ensures GroupItemsQuery(w.schema.Some?, w.value.path, sortByViews, searchText, locale, start).categories
      == Some([GroupCategoryCrumbs.PathOf(w.trail)])
  {
  }

  /** The snippet text of an item: its snippet, or the placeholder when it is missing or empty. */
  function SnippetText(snippet: Option<string>): (t: string)
    ensures snippet.Some? && |snippet.value| > 0 ==> t == snippet.value
    ensures snippet.None? || |snippet.value| == 0 ==> t == NoSnippet
    ensures |t| > 0
  {
    if snippet.Some? && |snippet.value| > 0 then snippet.value else NoSnippet
  }

  /** The text shown on the card: shorter texts unchanged, longer ones cut to 160 characters and "...". */
  function ShownSnippet(text: string): (r: string)
    ensures |r| <= MaxChars + 3
    ensures |text| < MaxChars ==> r == text
    ensures |text| >= MaxChars ==> |r| == MaxChars + 3 && r[..MaxChars] == text[..MaxChars] && r[MaxChars..] == "..."
  {
    if |text| < MaxChars then text else text[..MaxChars] + "..."
  }

  /** The shown text always starts with the original's first (up to) 160 characters. */
  lemma ShownSnippetPrefix(text: string)
    ensures var n := if |text| < MaxChars then |text| else MaxChars;
      ShownSnippet(text)[..n] == text[..n]
  {
  }

  /** Cutting a snippet a second time changes nothing. */
  lemma ShownSnippetIdempotent(text: string)
    ensures ShownSnippet(ShownSnippet(text)) == ShownSnippet(text)
  {
  }

  /** An item card's snippet: the shown text and its tooltip, which is the full text. */
  datatype CardSnippet = CardSnippet(shown: string, title: string)

  function ItemCardSnippet(snippet: Option<string>): (c: CardSnippet)
    ensures c.title == SnippetText(snippet)
    ensures |c.shown| <= MaxChars + 3
    ensures |c.title| < MaxChars ==> c.shown == c.title
    ensures |c.title| >= MaxChars ==> c.shown == c.title[..MaxChars] + "..."
  {
    var t := SnippetText(snippet);
    CardSnippet(ShownSnippet(t), t)
  }
}

=== FILE: strings.dfy ===
/**
 Joining strings with a one-character separator, as JavaScript's
 `Array.prototype.join`, and splitting them again, as `String.prototype.split`.
 */
module Strings {

  /** True iff the character `c` occurs in none of the strings `parts`. */
  predicate NoneContains(parts: seq<string>, c: char) {
    forall k :: 0 <= k < |parts| ==> c !in parts[k]
  }

  /** `parts` joined by `sep`: `[]` gives "", `[a]` gives `a`, `[a, b]` gives `a + sep + b`. */
  function Join(parts: seq<string>, sep: char): (r: string)
    ensures |parts| == 1 ==> r == parts[0]
    ensures |parts| == 0 ==> r == ""
  {
    if |parts| == 0 then ""
    else if |parts| == 1 then parts[0]
    else parts[0] + [sep] + Join(parts[1..], sep)
  }

  /** Index of the first occurrence of `c` in `s`. */
  function FirstIndex(s: string, c: char): (i: nat)
    requires c in s
    ensures i < |s| && s[i] == c
    ensures c !in s[..i]
  {
    if s[0] == c then 0
    else
      assert s == [s[0]] + s[1..];
      1 + FirstIndex(s[1..], c)
  }

  /** `s` cut at every `sep`; like JavaScript, the result is never empty ("" gives [""]). */
  function Split(s: string, sep: char): (r: seq<string>)
    ensures |r| >= 1
    ensures NoneContains(r, sep)
    decreases |s|
  {
    if sep !in s then [s]
    else
      var i := FirstIndex(s, sep);
      [s[..i]] + Split(s[i + 1..], sep)
  }

  /** Appending one more part adds the separator and that part to the end of the joined string. */
  lemma {:induction false} JoinSnoc(parts: seq<string>, last: string, sep: char)
    requires |parts| >= 1
    ensures Join(parts + [last], sep) == Join(parts, sep) + [sep] + last
    decreases |parts|
  {
    if |parts| == 1 {
      assert parts + [last] == [parts[0], last];
      assert ([parts[0], last])[1..] == [last];
    } else {
      assert (parts + [last])[1..] == parts[1..] + [last];
      JoinSnoc(parts[1..], last, sep);
    }
  }

  /** Splitting at a separator that follows a separator-free head gives the head, then the rest split. */
  lemma SplitAfterHead(head: string, tail: string, sep: char)
    requires sep !in head
    ensures Split(head + [sep] + tail, sep) == [head] + Split(tail, sep)
  {
    var s := head + [sep] + tail;
    assert s[..|head|] == head;
    assert s[|head|] == sep;
    var i := FirstIndex(s, sep);
    assert i == |head|;
    assert s[i + 1..] == tail;
  }

  /** Splitting a joined string at the separator gives the parts back when no part holds the separator. */
  lemma {:induction false} SplitJoin(parts: seq<string>, sep: char)
    requires |parts| >= 1
    requires NoneContains(parts, sep)
    ensures Split(Join(parts, sep), sep) == parts
    decreases |parts|
  {
    if |parts| == 1 {
      assert sep !in parts[0];
    } else {
      assert sep !in parts[0];
      SplitAfterHead(parts[0], Join(parts[1..], sep), sep);
      SplitJoin(parts[1..], sep);
      assert parts == [parts[0]] + parts[1..];
    }
  }
}

=== FILE: view_sync.dfy ===
/**
 Viewpoint synchronisation between the map and scene views of the viewer.
 Every view has a synchronizer that can lead: when its view starts
 interacting or animating it copies its viewpoint to the other views once,
 and from the next frame on mirrors every viewpoint change of its view to
 them, until another view starts interacting or its own view becomes
 stationary.

 A synchronizer's three handles (the viewpoint watch, the pending zero-delay
 timer and the watches on the other views) only ever take three shapes,
 modelled as `Phase`. Viewpoints are a type parameter; the zero-delay timer is
 the explicit event `TimerFires`.
 */
module ViewSync {

  /**
   Idle: no handle. Scheduled: timer pending and the other views watched.
   Mirroring: viewpoint watch installed and the other views watched.
   */
  datatype Phase = Idle | Scheduled | Mirroring

  /** Whether `viewpointWatchHandle` is set. */
  predicate HasViewpointWatch(p: Phase) {
    p.Mirroring?
  }

  /** Whether `scheduleId` is set. */
  predicate HasSchedule(p: Phase) {
    p.Scheduled?
  }

  /** Whether `otherInteractHandlers` (and the stationary watch) are set. */
  predicate HasOtherInteractHandlers(p: Phase) {
    !p.Idle?
  }

  /** The viewpoint of every view, and the phase of every view's synchronizer, by view index. */
  datatype Views<V> = Views(viewpoints: seq<V>, phases: seq<Phase>)

  predicate WellFormed<V>(s: Views<V>) {
    |s.viewpoints| == |s.phases|
  }

  /** All views at the given viewpoints, every synchronizer idle. */
  function Initial<V>(viewpoints: seq<V>): (s: Views<V>)
    ensures WellFormed(s) && s.viewpoints == viewpoints
    ensures forall k :: 0 <= k < |s.phases| ==> s.phases[k] == Idle
  {
    Views(viewpoints, seq(|viewpoints|, _ => Idle))
  }

  /** The views the synchronizer of view `i` drives: all others, in their original order. */
  function Followers<T>(views: seq<T>, i: nat): (r: seq<T>)
    requires i < |views|
    ensures |r| == |views| - 1
    ensures forall k :: 0 <= k < i ==> r[k] == views[k]
    ensures forall k :: i < k < |views| ==> r[k - 1] == views[k]
  {
    views[..i] + views[i + 1..]
  }

  /** Sets the viewpoint of every view but `i` to `vp`. */
  function SetFollowers<V>(viewpoints: seq<V>, i: nat, vp: V): (r: seq<V>)
    requires i < |viewpoints|
    ensures |r| == |viewpoints| && r[i] == viewpoints[i]
    ensures forall k :: 0 <= k < |r| && k != i ==> r[k] == vp
  {
    seq(|viewpoints|, k requires 0 <= k < |viewpoints| => if k == i then viewpoints[i] else vp)
  }

  /** After `SetFollowers`, every entry of view `i`'s follower list is `vp`. */
  lemma FollowersAllSet<V>(viewpoints: seq<V>, i: nat, vp: V)
    requires i < |viewpoints|
    ensures forall k :: 0 <= k < |viewpoints| - 1 ==> Followers(SetFollowers(viewpoints, i, vp), i)[k] == vp
  {
  }

  /** `clear()` of synchronizer `i`: every handle removed, back to idle. */
  function Clear<V>(s: Views<V>, i: nat): (r: Views<V>)
    requires WellFormed(s) && i < |s.phases|
    ensures WellFormed(r) && |r.phases| == |s.phases| && r.viewpoints == s.viewpoints
    ensures !HasViewpointWatch(r.phases[i]) && !HasSchedule(r.phases[i]) && !HasOtherInteractHandlers(r.phases[i])
    ensures forall k :: 0 <= k < |s.phases| && k != i ==> r.phases[k] == s.phases[k]
  {
    s.(phases := s.phases[i := Idle])
  }

  /**
   View `i`'s `interacting` or `animation` property changed to a value whose
   truth is `value`; `animating` says whether view `i` has an animation.
   Every other synchronizer that is watching view `i` clears; then the
   synchronizer of `i` starts, unless the value is falsy or it is already
   scheduled or mirroring. A fresh start copies `i`'s viewpoint to the others
   unless `i` is animating, and schedules the mirror.
   */
  function OnInteractOrAnimate<V>(s: Views<V>, i: nat, value: bool, animating: bool): (r: Views<V>)
    requires WellFormed(s) && i < |s.phases|
    ensures WellFormed(r) && |r.phases| == |s.phases|
    ensures !value ==> r == s
    ensures value ==> forall k :: 0 <= k < |r.phases| && k != i ==> r.phases[k] == Idle
    ensures value && (HasViewpointWatch(s.phases[i]) || HasSchedule(s.phases[i])) ==>
      r.viewpoints == s.viewpoints && r.phases[i] == s.phases[i]
    ensures value && s.phases[i] == Idle ==> r.phases[i] == Scheduled && r.viewpoints[i] == s.viewpoints[i]
    ensures value && s.phases[i] == Idle && !animating ==>
      forall k :: 0 <= k < |r.viewpoints| ==> r.viewpoints[k] == s.viewpoints[i]
    ensures value && s.phases[i] == Idle && animating ==> r.viewpoints == s.viewpoints
  {
    if !value then s
    else
      var cleared := seq(|s.phases|, k requires 0 <= k < |s.phases| =>
        if k != i && HasOtherInteractHandlers(s.phases[k]) then Idle else s.phases[k]);
      if HasViewpointWatch(s.phases[i]) || HasSchedule(s.phases[i]) then
        Views(s.viewpoints, cleared)
      else
        var vps := if !animating then SetFollowers(s.viewpoints, i, s.viewpoints[i]) else s.viewpoints;
        Views(vps, cleared[i := Scheduled])
  }

  /**
   The zero-delay timer of synchronizer `i` fires: the schedule is dropped and
   the viewpoint watch installed. A timer that `clear()` cancelled never fires.
   */
  function OnTimer<V>(s: Views<V>, i: nat): (r: Views<V>)
    requires WellFormed(s) && i < |s.phases|
    ensures WellFormed(r) && |r.phases| == |s.phases| && r.viewpoints == s.viewpoints
    ensures s.phases[i] == Scheduled ==> !HasSchedule(r.phases[i]) && HasViewpointWatch(r.phases[i])
    ensures s.phases[i] != Scheduled ==> r == s
    ensures forall k :: 0 <= k < |s.phases| && k != i ==> r.phases[k] == s.phases[k]
  {
    if s.phases[i].Scheduled? then s.(phases := s.phases[i := Mirroring]) else s
  }

  /**
   The viewpoint of view `i` becomes `vp`; if its synchronizer is mirroring,
   every other view is set to `vp` as well.
   */
  function OnViewpointChange<V>(s: Views<V>, i: nat, vp: V): (r: Views<V>)
    requires WellFormed(s) && i < |s.phases|
    ensures WellFormed(r) && |r.phases| == |s.phases| && r.phases == s.phases && r.viewpoints[i] == vp
    ensures HasViewpointWatch(s.phases[i]) ==> forall k :: 0 <= k < |r.viewpoints| ==> r.viewpoints[k] == vp
    ensures !HasViewpointWatch(s.phases[i]) ==>
      forall k :: 0 <= k < |r.viewpoints| && k != i ==> r.viewpoints[k] == s.viewpoints[k]
  {
    var vps := s.viewpoints[i := vp];
    if HasViewpointWatch(s.phases[i]) then s.(viewpoints := SetFollowers(vps, i, vp))
    else s.(viewpoints := vps)
  }

  /** View `i` becomes stationary: its synchronizer, if it is watching, clears. */
  function OnStationary<V>(s: Views<V>, i: nat): (r: Views<V>)
    requires WellFormed(s) && i < |s.phases|
    ensures WellFormed(r) && |r.phases| == |s.phases| && r.viewpoints == s.viewpoints && r.phases[i] == Idle
    ensures forall k :: 0 <= k < |s.phases| && k != i ==> r.phases[k] == s.phases[k]
  {
    if HasOtherInteractHandlers(s.phases[i]) then Clear(s, i) else s
  }

  /** The inputs of the synchronizers. */
  datatype Event<V> =
    | InteractOrAnimate(view: nat, value: bool, animating: bool)
    | TimerFires(view: nat)
    | ViewpointChange(view: nat, vp: V)
    | BecomesStationary(view: nat)

  /** One event; an event about a view that does not exist does nothing. */
  function Step<V>(s: Views<V>, e: Event<V>): (r: Views<V>)
    requires WellFormed(s)
    ensures WellFormed(r) && |r.phases| == |s.phases|
  {
    if e.view >= |s.phases| then s
    else
      match e
      case InteractOrAnimate(i, value, animating) => OnInteractOrAnimate(s, i, value, animating)
      case TimerFires(i) => OnTimer(s, i)
      case ViewpointChange(i, vp) => OnViewpointChange(s, i, vp)
      case BecomesStationary(i) => OnStationary(s, i)
  }

  /** Events in order. */
  function Run<V>(s: Views<V>, events: seq<Event<V>>): (r: Views<V>)
    requires WellFormed(s)
    ensures WellFormed(r) && |r.phases| == |s.phases|
    decreases |events|
  {
    if |events| == 0 then s else Run(Step(s, events[0]), events[1..])
  }

  /** At most one synchronizer is active: the leader. */
  predicate AtMostOneLeader<V>(s: Views<V>) {
    forall a, b :: 0 <= a < |s.phases| && 0 <= b < |s.phases| && s.phases[a] != Idle && s.phases[b] != Idle ==> a == b
  }

  /** Every event keeps at most one synchronizer active. */
  lemma StepKeepsOneLeader<V>(s: Views<V>, e: Event<V>)
    requires WellFormed(s) && AtMostOneLeader(s)
    ensures AtMostOneLeader(Step(s, e))
  {
  }

  /** From any state with at most one active synchronizer, no event sequence ever makes two active at once. */
  lemma {:induction false} RunKeepsOneLeader<V>(s: Views<V>, events: seq<Event<V>>)
    requires WellFormed(s) && AtMostOneLeader(s)
    ensures AtMostOneLeader(Run(s, events))
    decreases |events|
  {
    if |events| > 0 {
      StepKeepsOneLeader(s, events[0]);
      RunKeepsOneLeader(Step(s, events[0]), events[1..]);
    }
  }

  /** The views as `synchronizeViews` leaves them: never more than one synchronizer active, whatever happens. */
  lemma InitialOneLeader<V>(viewpoints: seq<V>, events: seq<Event<V>>)
    ensures AtMostOneLeader(Run(Initial(viewpoints), events))
  {
    RunKeepsOneLeader(Initial(viewpoints), events);
  }

  /** True iff `e` would start the synchronizer of view `i`. */
  predicate StartsView<V>(e: Event<V>, i: nat) {
    e.InteractOrAnimate? && e.view == i && e.value
  }

  /**
   Once synchronizer `i` is idle it stays idle until its own view starts
   interacting or animating again; in particular its viewpoint watch is not
   reinstalled before then.
   */
  lemma {:induction false} IdleUntilRestart<V>(s: Views<V>, i: nat, events: seq<Event<V>>)
    requires WellFormed(s) && i < |s.phases| && s.phases[i] == Idle
    requires forall k :: 0 <= k < |events| ==> !StartsView(events[k], i)
    ensures Run(s, events).phases[i] == Idle
    decreases |events|
  {
    if |events| > 0 {
      var s1 := Step(s, events[0]);
      assert s1.phases[i] == Idle;
      IdleUntilRestart(s1, i, events[1..]);
    }
  }

  /** The full cycle: a fresh start, the timer, then a leader move sets every view to the leader's new viewpoint. */
  lemma StartTimerMirror<V>(s: Views<V>, i: nat, animating: bool, vp: V)
    requires WellFormed(s) && i < |s.phases| && s.phases[i] == Idle
    ensures var r := Run(s, [InteractOrAnimate(i, true, animating), TimerFires(i), ViewpointChange(i, vp)]);
      && r.phases[i] == Mirroring
      && (forall k :: 0 <= k < |r.viewpoints| ==> r.viewpoints[k] == vp)
      && (forall k :: 0 <= k < |r.phases| && k != i ==> r.phases[k] == Idle)
  {
    var es: seq<Event<V>> := [InteractOrAnimate(i, true, animating), TimerFires(i), ViewpointChange(i, vp)];
    var s1 := Step(s, es[0]);
    var s2 := Step(s1, es[1]);
    var s3 := Step(s2, es[2]);
    assert Run(s2, es[2..]) == Run(s3, []) == s3 by { assert es[2..][1..] == []; }
    assert Run(s1, es[1..]) == Run(s2, es[2..]) by { assert es[1..][1..] == es[2..]; }
  }
}

=== FILE: wrappers.dfy ===
/** The Some/None datatype that stands in for JavaScript's null and undefined. */
module Wrappers {

  datatype Option<+T> = None | Some(value: T)

}
